=== FILE: README.md ===
# git-npm-version-checker, modelled in Dafny

`git-npm-version-checker` keeps the `version` field of a project's
`package.json` in step with the git ref the working copy is on. The git ref
can be `tags/1.0.0`, `refs/heads/release/1.0.0` or `refs/heads/hotfix/1.0.0`.

A run of `GitNpmVersionChecker` does four things:

1. It asks git for the ref name of HEAD.
2. It extracts a version token from that ref name.
3. It reads the manifest.
4. It either confirms that the manifest agrees with the token, rewrites the
   manifest's `version` (in fix mode), or rejects the run.

This project models that run (`run`, `extractBranchVersionAndCompare`,
`compareWithPackage`) as pure Dafny functions, and proves what the run
promises. The two constants `VERSION_BRANCH_IDENTIFIER` and `PACKAGE_PATH` are
`BranchVersion.VersionBranchIdentifier` and `Manifest.PackagePath`.

The modules are:

- `Results`: `Option`, `Result` and `Outcome` (pass or fail with a cause).
- `Text`: the ECMAScript `WhiteSpace` and `LineTerminator` character sets, and
  `String.prototype.trim` as `Trim`. `Trim` is characterised by the padding it
  removes, and proved idempotent and unique.
- `BranchVersion`: the regular expression `(?:tags|release|hotfix)/(.*)$` as
  JavaScript's `String.prototype.match` runs it. The search is unanchored: start
  positions are tried left to right, and alternatives in list order. `.*` does
  not cross a line terminator, and `$` without the multiline flag means end of
  input. On top of the search sits the extraction rule `ExtractVersion`:
  - a non-empty capture of the trimmed name is the token;
  - otherwise a name with no `/` is the token, whole and untrimmed;
  - otherwise there is no version.
- `Manifest`: the parsed `package.json` as a map from keys to values. Only
  `version` is inspected or changed. JavaScript's `!==` is modelled as: equal
  only to a string value with the same characters.
- `Checker`: the decision table of `compareWithPackage` and the composition
  in `extractBranchVersionAndCompare` and `run`.
  - The three side effects are inputs (`Environment`): how the git query, the
    manifest read and the manifest write would settle.
  - A run returns a `Report`: the settled promise (a `Verdict` or an `Error`),
    the paths it read and the writes it issued.
- `Scenarios`: the situations in the repository's test suite, stated as facts
  about the model. Each version is a parameter, and `1.0.0` / `2.0.0` are
  instances. In the Scenarios rows below, `<v>` and `<w>` stand for a
  `PlainVersion`: non-empty, single-line and not ending in whitespace, like
  `1.0.0`. A version ending in whitespace would be trimmed away before the
  match, and an empty one gives no capture.

Details of the code the model keeps:

- A ref name with no `/` is accepted as a tag (lines 54-56).
- That name is taken as received, not trimmed. Only the pattern sees the
  trimmed name. So a trailing newline from git stays in the token
  (`Scenarios.SlashFreeNameTakenWhole`).
- The `git describe` fallback is never reached, because `run` calls
  `getGitBranchName()` with no argument. It is not modelled.
- The code's pattern is `(.*)$` followed by a non-empty check, not `(.+)$`.
  `BranchVersion.LeftmostAtEndIsLast` shows the difference is never observable,
  for any name: when the leftmost recognised identifier is followed by `/` and
  nothing else, no later identifier can have a non-empty remainder.

Names with a line terminator inside them are modelled as JavaScript treats
them: the search skips any start position from which `.*` cannot reach the end
of input. The lemmas that describe the token as "the remainder after the
leftmost identifier" are stated for names that are single-line once trimmed,
because only for those does that description hold.

## Model

| member | source | states |
|---|---|---|
| Text.Trim | lib/git-npm-version-checker.js:47 | `trim` leaves a string with no whitespace or line terminator at either end, and never lengthens its input |
| Text.TrimPaddedAt | lib/git-npm-version-checker.js:47 | the trimmed name is an infix of the name, and everything cut off before and after it is whitespace or line terminators |
| Text.TrimOfPadded | lib/git-npm-version-checker.js:47 | `trim` is determined by that description: whatever padding surrounds a trimmed core, `trim` returns exactly that core |
| Text.TrimOfTrimmed | lib/git-npm-version-checker.js:47 | a string with nothing to trim at either end is its own trim |
| Text.TrimIdempotent | lib/git-npm-version-checker.js:47 | trimming twice is trimming once |
| Text.TrimOnlyRemoves | lib/git-npm-version-checker.js:47 | a character found in the trimmed name was in the name as received |
| Text.TrimStartRemovesPadding | lib/git-npm-version-checker.js:47 | the leading part of `trim` removes a prefix made only of trimmable characters, and what remains does not start with one |
| Text.TrimEndRemovesPadding | lib/git-npm-version-checker.js:47 | the trailing part of `trim` removes a suffix made only of trimmable characters, and what remains does not end with one |
| BranchVersion.FirstAlternative | lib/git-npm-version-checker.js:48 | at one start position, the alternatives of the pattern are tried in the order of `VERSION_BRANCH_IDENTIFIER`, and the first that matches is taken |
| BranchVersion.MatchFrom | lib/git-npm-version-checker.js:46-48 | the unanchored search returns the leftmost start at which the pattern matches, with the capture running from after the `/` to the end of input; it returns nothing only when no start position matches |
| BranchVersion.VersionIn | lib/git-npm-version-checker.js:46-51 | a non-empty capture is a proper, single-line suffix of the searched name, and the name contains a `/` |
| BranchVersion.ExtractVersion | lib/git-npm-version-checker.js:44-60 | a name without `/` is the token as received; any other token is a non-empty, single-line, proper suffix of the trimmed name |
| BranchVersion.CaptureFacts | lib/git-npm-version-checker.js:48-51 | a match has a `/` just before its capture, and the capture is a single-line suffix of the searched name |
| BranchVersion.ExtractOfTrimmed | lib/git-npm-version-checker.js:46-51 | for a name with a `/` and nothing to trim, the token is exactly the non-empty capture of the pattern in that name |
| BranchVersion.AlternativesExclusive | lib/git-npm-version-checker.js:157-161 | `tags`, `release` and `hotfix` begin with different letters, so at most one alternative is present at any position |
| BranchVersion.IdentifierSingleLine | lib/git-npm-version-checker.js:157-161 | no recognised identifier contains a line terminator |
| BranchVersion.SearchFindsLeftmost | lib/git-npm-version-checker.js:46-48 | on a single-line name, the search finds exactly the leftmost occurrence of a recognised identifier followed by `/` |
| BranchVersion.ExtractLeftmost | lib/git-npm-version-checker.js:46-52 | if the leftmost identifier-plus-`/` in the trimmed single-line name has a non-empty remainder, that remainder to the end of the name is the token |
| BranchVersion.LeftmostAtEndIsLast | lib/git-npm-version-checker.js:48-50 | if the leftmost identifier-plus-`/` ends the name, every other identifier-plus-`/` also ends there |
| BranchVersion.SearchRejectsExactly | lib/git-npm-version-checker.js:48-50 | on a single-line name the pattern yields no version if and only if every identifier-plus-`/` in it is followed by nothing |
| BranchVersion.ExtractRejectsExactly | lib/git-npm-version-checker.js:44-60 | a name that is single-line once trimmed is rejected if and only if it contains a `/` and every identifier-plus-`/` in its trimmed form is followed by nothing |
| BranchVersion.CannotStartRulesOut | lib/git-npm-version-checker.js:48 | no identifier-plus-`/` starts where, for each identifier, the first letter or the `/` after it is missing |
| BranchVersion.SegmentAfterHead | lib/git-npm-version-checker.js:48 | in `head + identifier + "/" + v`, the identifier and its `/` sit right after the head, and the capture from there is `v` |
| BranchVersion.ExtractAfterIdentifier | lib/git-npm-version-checker.js:46-52 | a name with nothing to trim at either end (so the version does not end in whitespace), made of a head with no identifier in it, a recognised identifier, `/` and a non-empty single-line version, yields exactly that version |
| BranchVersion.EmptyVersionRejected | lib/git-npm-version-checker.js:50-59 | a name whose leftmost identifier-plus-`/` ends it has an empty capture and is rejected, although it contains `/` |
| BranchVersion.NoIdentifierNoVersion | lib/git-npm-version-checker.js:48-50 | a string with no identifier-plus-`/` anywhere gives the pattern no match |
| BranchVersion.NoIdentifierRejected | lib/git-npm-version-checker.js:50-59 | a name with a `/` but no identifier-plus-`/` in its trimmed form is rejected |
| Manifest.HasVersion | lib/git-npm-version-checker.js:107 | the manifest agrees with the token exactly when it has a `version` key holding a string of the same characters; a number, boolean or missing key never agrees, and an agreeing `version` renders as the token itself |
| Manifest.WithVersion | lib/git-npm-version-checker.js:114 | `packageFile.version = version` gives a manifest whose `version` is the token, adds that key if it is missing, and keeps every other key and value |
| Manifest.VersionUpdateUnique | lib/git-npm-version-checker.js:114 | any manifest that replaces only `version` by the token is the one the assignment builds |
| Manifest.WithVersionIdempotent | lib/git-npm-version-checker.js:107-114 | setting the version a manifest already has changes nothing |
| Manifest.NonStringNeverMatches | lib/git-npm-version-checker.js:107 | under `!==`, a non-string `version` never equals the token, even when it prints the same |
| Checker.Message | lib/git-npm-version-checker.js:58-127 | a failed git query, read or write rejects with that effect's own message; a name without a version rejects with "No current git branch version found."; a mismatch reads "Versions mismatch (git = " then the branch version, " package.json = ", the manifest's `version` as string concatenation renders it (`undefined` when missing) and ")" |
| Checker.CompareWithPackage | lib/git-npm-version-checker.js:98-135 | reads `./package.json` once and writes at most once. It writes exactly when fix is on, the read succeeded and the versions differ, and the write is the read manifest with only `version` replaced. It succeeds exactly when the read succeeded and either the versions agree or fix is on and the write passes; success leaves the manifest holding the token |
| Checker.ExtractBranchVersionAndCompare | lib/git-npm-version-checker.js:44-63 | the manifest is read exactly when a version was extracted; otherwise the run rejects with "No current git branch version found." and writes nothing. Success implies a version was extracted and the manifest ends up holding it |
| Checker.Run | lib/git-npm-version-checker.js:39-42 | a failed git query rejects with its own error and touches nothing; at most one write, and only in fix mode after a successful query and read; success implies a token was extracted and the manifest ends up holding it |
| Checker.MatchedNeverWrites | lib/git-npm-version-checker.js:128-131 | agreeing versions succeed with no write, whatever the fix flag and whatever a write would have done |
| Checker.MismatchWithoutFixRejects | lib/git-npm-version-checker.js:107-127 | differing versions without fix mode reject with a message that names the branch version and then the manifest's version, and nothing is written |
| Checker.FixWritesOnce | lib/git-npm-version-checker.js:110-124 | differing versions in fix mode issue exactly one write of the updated manifest to `./package.json`; the run succeeds if and only if that write does, and otherwise rejects with the write's error |
| Checker.ReadFailureNeverWrites | lib/git-npm-version-checker.js:101-103 | a failed read rejects with the read error and writes nothing, even in fix mode |
| Checker.FixIdempotent | lib/git-npm-version-checker.js:107-131 | comparing the manifest just written against the same token matches and writes nothing more |
| Checker.UnversionedBranchTouchesNothing | lib/git-npm-version-checker.js:58-60 | a ref name that yields no version rejects with "No current git branch version found." before the manifest is read |
| Checker.RunIdempotentAfterFix | lib/git-npm-version-checker.js:39-42 | a second run on the same ref after a successful fix matches with no write, in either mode |
| Checker.VerboseIsSideChannel | lib/git-npm-version-checker.js:143-147 | the verbose flag never changes a run's result, reads or writes |
| Scenarios.TagNamePasses | test/git-npm-version-checker.test.js:10-11 | `tags/<v>` yields `<v>` |
| Scenarios.HeadsReleaseNamePasses | test/git-npm-version-checker.test.js:12 | `heads/release/<v>` yields `<v>` |
| Scenarios.RefsHeadsReleaseNamePasses | test/git-npm-version-checker.test.js:13 | `refs/heads/release/<v>` yields `<v>` |
| Scenarios.HeadsHotfixNamePasses | test/git-npm-version-checker.test.js:14 | `heads/hotfix/<v>` yields `<v>` |
| Scenarios.RefsHeadsHotfixNamePasses | test/git-npm-version-checker.test.js:15 | `refs/heads/hotfix/<v>` yields `<v>` |
| Scenarios.ReleaseBranchMatches | test/git-npm-version-checker.test.js:26-44 | a release branch whose version the manifest already holds passes without a write |
| Scenarios.ReleaseBranchFixed | test/git-npm-version-checker.test.js:47-66 | a release branch whose version the manifest lacks is fixed in fix mode, by one write of the manifest holding the branch's version |
| Scenarios.ReleaseBranchMismatch | test/git-npm-version-checker.test.js:148-164 | without fix mode, a release branch whose version differs from the manifest's (the suite uses 2.0.0 against 1.0.0) rejects with "Versions mismatch (git = <v> package.json = <w>)" and writes nothing |
| Scenarios.MismatchMessageReads | lib/git-npm-version-checker.js:108 | the mismatch message reads "Versions mismatch (git = <v> package.json = <w>)" |
| Scenarios.HeadsBranchRejected | test/git-npm-version-checker.test.js:17-20 | `heads/<branch>`, where the branch is non-empty, has no `/` and does not end in whitespace or a line terminator (such as `develop` and `master`), yields no version |
| Scenarios.UnsupportedBranchNamesFail | test/git-npm-version-checker.test.js:69-89 | `heads/<branch>`, for a non-empty branch with no `/` that does not end in whitespace or a line terminator, rejects the run, and the manifest is neither read nor written |
| Scenarios.EmptyCaptureRejected | lib/git-npm-version-checker.js:50-59 | `refs/heads/release/` yields no version |
| Scenarios.SlashFreeNameTakenWhole | lib/git-npm-version-checker.js:54-56 | a name without `/` is its own token, so a trailing newline in git's output makes it differ from the manifest's version |
| Scenarios.EffectFailuresReject | test/git-npm-version-checker.test.js:130-200 | a failed git query, a failed read and a failed write each reject the run with their own error; only the failed write leaves a write issued |

## Left out

- The constructor (lines 15-32) is not modelled. Option validation is done by joi, whose coercion rules are not part of this model; the options are two booleans, `Options.fixVersion` and `Options.verbose`, defaulting to false. The eager `git` presence check is process I/O.
- `getGitBranchName` (lines 72-89) runs `git symbolic-ref -q HEAD` through `child_process.exec`. It is represented only by its settled result, `Environment.branchQuery`. The `git describe` branch (lines 75-77) is unreachable from `run` and is not modelled.
- Console output, chalk colouring and the `log` helper (lines 105, 111-112, 121, 129, 143-147) are side effects that do not affect control flow. They are left out; `Checker.VerboseIsSideChannel` records that the flag changes nothing else.
- JSON parsing and serialisation by fs-extra (lines 101, 117) are represented by the parsed object (`Manifest.Package`) and by the settled outcomes of the read and the write.
  - Key order, formatting and a manifest that parses to something other than an object are not modelled.
  - A non-string `version` is kept only as the text it prints as (`Manifest.Value.Other`).
- `cli.js` (flag wiring through commander, exit status) is not part of this model.
- Line 61 of the source has a stray closing brace, which leaves `return this.compareWithPackage(version);` (line 63) outside the method. As written the file does not parse. The model follows the evident intent: extract, then compare.
- Concurrency, and a manifest changing on disk between the read and the write, are not modelled. The run is a single sequential pipeline.

=== FILE: branch.dfy ===
/** Extraction of the version token from a git ref name: the regular
    expression `(?:tags|release|hotfix)/(.*)$` searched in the trimmed name,
    with the fallback that a name without any `/` is a tag name.
 */
module BranchVersion {
  import opened Results
  import opened Text

  /** The ref-name segments that announce a version, in alternation order. */
  const VersionBranchIdentifier: seq<string> := ["tags", "release", "hotfix"]

  /** Identifier `id` followed by `/` starts at position `p` of `t`, and at
      least the empty capture can follow it. */
  predicate SegmentAt(t: string, p: nat, id: string) {
    p + |id| < |t| && t[p..p + |id|] == id && t[p + |id|] == '/'
  }

  /** Some recognised identifier followed by `/` starts at `p`. */
  predicate OccursAt(t: string, p: nat) {
    exists i :: 0 <= i < |VersionBranchIdentifier| && SegmentAt(t, p, VersionBranchIdentifier[i])
  }

  /** Where the `(.*)` group begins when alternative `i` matched at `p`. */
  function CaptureStart(p: nat, i: nat): nat
    requires i < |VersionBranchIdentifier|
  {
    p + |VersionBranchIdentifier[i]| + 1
  }

  /** From position `c` on, `t` has no line terminator. */
  predicate SingleLineFrom(t: string, c: nat) {
    forall k :: c <= k < |t| ==> !IsLineTerminator(t[k])
  }

  /** Alternative `i` of the pattern matches when the search is at `p`:
      the identifier and `/` are there, and `.*` can then reach the end of
      input, which it cannot across a line terminator. */
  predicate AlternativeMatchesAt(t: string, p: nat, i: nat)
    requires i < |VersionBranchIdentifier|
  {
    SegmentAt(t, p, VersionBranchIdentifier[i]) && SingleLineFrom(t, CaptureStart(p, i))
  }

  /** The whole pattern matches when the search is at `p`. */
  predicate MatchesAt(t: string, p: nat) {
    exists i :: 0 <= i < |VersionBranchIdentifier| && AlternativeMatchesAt(t, p, i)
  }

  /** A successful `String.prototype.match`: where the match starts, which
      alternative matched, and the text of the capture group. */
  datatype Match = Match(start: nat, alternative: nat, capture: string)

  /** The first alternative, from index `i` on, that matches at `p`. */
  function FirstAlternative(t: string, p: nat, i: nat): (r: Option<nat>)
    requires i <= |VersionBranchIdentifier|
    ensures r.Some? ==> i <= r.value < |VersionBranchIdentifier|
                        && AlternativeMatchesAt(t, p, r.value)
                        && forall j :: i <= j < r.value ==> !AlternativeMatchesAt(t, p, j)
    ensures r.None? ==> forall j :: i <= j < |VersionBranchIdentifier| ==> !AlternativeMatchesAt(t, p, j)
    decreases |VersionBranchIdentifier| - i
  {
    if i == |VersionBranchIdentifier| then None
    else if AlternativeMatchesAt(t, p, i) then Some(i)
    else FirstAlternative(t, p, i + 1)
  }

  /** `m` is the leftmost match of the pattern among the start positions
      from `p` on: it matches where it says, its capture runs from after the
      `/` to the end of input, and no earlier start position matches. */
  predicate LeftmostFrom(t: string, p: nat, m: Match) {
    && p <= m.start
    && m.alternative < |VersionBranchIdentifier|
    && AlternativeMatchesAt(t, m.start, m.alternative)
    && m.capture == t[CaptureStart(m.start, m.alternative)..]
    && forall q :: p <= q < m.start ==> !MatchesAt(t, q)
  }

  /** The backtracking search for the unanchored pattern, trying start
      positions from `p` upwards; it yields the leftmost match. */
  function MatchFrom(t: string, p: nat): (r: Option<Match>)
    requires p <= |t|
    ensures r.Some? ==> LeftmostFrom(t, p, r.value)
    ensures r.None? ==> forall q: nat :: p <= q ==> !MatchesAt(t, q)
    decreases |t| - p
  {
    if p == |t| then
      None
    else
      match FirstAlternative(t, p, 0)
      case Some(i) => Some(Match(p, i, t[CaptureStart(p, i)..]))
      case None =>
        assert !MatchesAt(t, p);
        MatchFrom(t, p + 1)
  }

  /** The pattern applied to the whole of `t`. */
  function Search(t: string): Option<Match> {
    MatchFrom(t, 0)
  }

  /** The non-empty capture of the pattern in `t`, if it matches. */
  function VersionIn(t: string): (r: Option<string>)
    ensures r.Some? ==> '/' in t
    ensures r.Some? ==> && 0 < |r.value| < |t|
                        && r.value == t[|t| - |r.value|..]
                        && NoLineTerminator(r.value)
  {
    var m := Search(t);
    if m.Some? && m.value.capture != [] then
      CaptureFacts(t, m.value);
      Some(m.value.capture)
    else
      None
  }

  /** The token the branch name announces, or None when the name carries a
      `/` but no non-empty version after a recognised identifier. The
      pattern sees the trimmed name; a name without `/` is returned as it
      was received, untrimmed. */
  function ExtractVersion(branchName: string): (r: Option<string>)
    ensures '/' !in branchName ==> r == Some(branchName)
    ensures r.Some? && '/' in branchName ==>
              var t := Trim(branchName);
              && 0 < |r.value| < |t|
              && r.value == t[|t| - |r.value|..]
              && NoLineTerminator(r.value)
  {
    match VersionIn(Trim(branchName))
    case Some(version) =>
      TrimOnlyRemoves(branchName, '/');
      Some(version)
    case None =>
      if '/' !in branchName then Some(branchName) else None
  }

  /** A match in `t` has a `/` before its capture, and its capture is a
      proper single-line suffix of `t`. */
  lemma CaptureFacts(t: string, m: Match)
    requires m.alternative < |VersionBranchIdentifier|
    requires AlternativeMatchesAt(t, m.start, m.alternative)
    requires m.capture == t[CaptureStart(m.start, m.alternative)..]
    ensures '/' in t
    ensures && |m.capture| < |t|
            && m.capture == t[|t| - |m.capture|..]
            && NoLineTerminator(m.capture)
  {
  }

  /** A name with nothing to trim and a `/` yields what the pattern
      captures in it. */
  lemma ExtractOfTrimmed(t: string)
    requires Trimmed(t) && '/' in t
    ensures ExtractVersion(t) == VersionIn(t)
  {
    TrimOfTrimmed(t);
  }

  /** The three identifiers begin with different letters, so at any
      position at most one alternative can be present. */
  lemma AlternativesExclusive(t: string, p: nat, i: nat, j: nat)
    requires i < |VersionBranchIdentifier| && j < |VersionBranchIdentifier|
    requires SegmentAt(t, p, VersionBranchIdentifier[i])
    requires SegmentAt(t, p, VersionBranchIdentifier[j])
    ensures i == j
  {
  }

  /** On a single-line name the search finds exactly the leftmost
      occurrence of a recognised identifier followed by `/`. */
  lemma SearchFindsLeftmost(t: string, p: nat, i: nat)
    requires NoLineTerminator(t)
    requires i < |VersionBranchIdentifier| && SegmentAt(t, p, VersionBranchIdentifier[i])
    requires forall q: nat :: q < p ==> !OccursAt(t, q)
    ensures Search(t) == Some(Match(p, i, t[CaptureStart(p, i)..]))
  {
    assert AlternativeMatchesAt(t, p, i);
    assert MatchesAt(t, p);
    var m := Search(t).value;
    assert m.start == p by {
      if m.start < p {
        assert OccursAt(t, m.start);
      }
    }
    AlternativesExclusive(t, p, i, m.alternative);
  }

  /** The recognised identifier starting at `p` is the leftmost one and has
      a non-empty remainder: the token is that remainder, to the end of the
      trimmed name. */
  lemma ExtractLeftmost(branchName: string, p: nat, i: nat)
    requires NoLineTerminator(Trim(branchName))
    requires i < |VersionBranchIdentifier| && SegmentAt(Trim(branchName), p, VersionBranchIdentifier[i])
    requires forall q: nat :: q < p ==> !OccursAt(Trim(branchName), q)
    requires CaptureStart(p, i) < |Trim(branchName)|
    ensures ExtractVersion(branchName) == Some(Trim(branchName)[CaptureStart(p, i)..])
  {
    SearchFindsLeftmost(Trim(branchName), p, i);
  }

  /** When the leftmost recognised identifier ends the name, no later one
      can have a non-empty remainder: its `/` would fall inside the letters
      of the leftmost identifier. */
  lemma LeftmostAtEndIsLast(t: string, m: Match, p: nat, i: nat)
    requires m.alternative < |VersionBranchIdentifier|
    requires SegmentAt(t, m.start, VersionBranchIdentifier[m.alternative])
    requires CaptureStart(m.start, m.alternative) == |t|
    requires i < |VersionBranchIdentifier| && SegmentAt(t, p, VersionBranchIdentifier[i])
    requires m.start <= p
    ensures CaptureStart(p, i) == |t|
  {
  }

  /** On a single-line string the pattern yields no version exactly when
      every recognised identifier in it is followed by `/` and then
      nothing. */
  lemma SearchRejectsExactly(t: string)
    requires NoLineTerminator(t)
    ensures VersionIn(t).None? <==>
              forall p: nat, i: nat :: i < |VersionBranchIdentifier| && SegmentAt(t, p, VersionBranchIdentifier[i])
                                     ==> CaptureStart(p, i) == |t|
  {
    var m := Search(t);
    if VersionIn(t).None? {
      forall p: nat, i: nat | i < |VersionBranchIdentifier| && SegmentAt(t, p, VersionBranchIdentifier[i])
        ensures CaptureStart(p, i) == |t|
      {
        assert AlternativeMatchesAt(t, p, i);
        assert MatchesAt(t, p);
        LeftmostAtEndIsLast(t, m.value, p, i);
      }
    }
  }

  /** On a name that is single-line once trimmed, extraction fails exactly
      when the name has a `/` and every recognised identifier in the
      trimmed name is followed by `/` and then nothing. */
  lemma ExtractRejectsExactly(branchName: string)
    requires NoLineTerminator(Trim(branchName))
    ensures ExtractVersion(branchName).None? <==>
              && '/' in branchName
              && forall p: nat, i: nat :: i < |VersionBranchIdentifier| && SegmentAt(Trim(branchName), p, VersionBranchIdentifier[i])
                                     ==> CaptureStart(p, i) == |Trim(branchName)|
  {
    SearchRejectsExactly(Trim(branchName));
  }

  /** A cheap sufficient test that no recognised identifier followed by `/`
      starts at `q`: for each identifier, either its first letter or the
      `/` after it is missing. */
  predicate CannotStartAt(t: string, q: nat) {
    forall j :: 0 <= j < |VersionBranchIdentifier| ==>
      || q + |VersionBranchIdentifier[j]| >= |t|
      || t[q] != VersionBranchIdentifier[j][0]
      || t[q + |VersionBranchIdentifier[j]|] != '/'
  }

  lemma CannotStartRulesOut(t: string, q: nat)
    requires CannotStartAt(t, q)
    ensures !OccursAt(t, q)
  {
  }

  lemma JoinKeepsNoLineTerminator(a: string, b: string)
    requires NoLineTerminator(a) && NoLineTerminator(b)
    ensures NoLineTerminator(a + b)
  {
  }

  lemma IdentifierSingleLine(i: nat)
    requires i < |VersionBranchIdentifier|
    ensures NoLineTerminator(VersionBranchIdentifier[i])
  {
  }

  /** The identifier and its `/` sit right after the head. */
  lemma SegmentAfterHead(head: string, i: nat, v: string)
    requires i < |VersionBranchIdentifier|
    ensures var t := head + VersionBranchIdentifier[i] + "/" + v;
            && SegmentAt(t, |head|, VersionBranchIdentifier[i])
            && t[CaptureStart(|head|, i)..] == v
  {
  }

  /** A name made of a head, a recognised identifier, `/` and a non-empty
      single-line version, with no identifier starting inside the head,
      yields exactly that version. */
  lemma ExtractAfterIdentifier(head: string, i: nat, v: string)
    requires i < |VersionBranchIdentifier| && v != []
    requires Trimmed(head + VersionBranchIdentifier[i] + "/" + v)
    requires NoLineTerminator(head) && NoLineTerminator(v)
    requires forall q: nat :: q < |head| ==> !OccursAt(head + VersionBranchIdentifier[i] + "/" + v, q)
    ensures ExtractVersion(head + VersionBranchIdentifier[i] + "/" + v) == Some(v)
  {
    var id := VersionBranchIdentifier[i];
    var t := head + id + "/" + v;
    assert NoLineTerminator(t) by {
      IdentifierSingleLine(i);
      JoinKeepsNoLineTerminator(head, id);
      JoinKeepsNoLineTerminator(head + id, "/");
      JoinKeepsNoLineTerminator(head + id + "/", v);
    }
    SegmentAfterHead(head, i, v);
    SearchFindsLeftmost(t, |head|, i);
    ExtractOfTrimmed(t);
  }

  /** The leftmost recognised identifier ends the name: the capture is
      empty, and since the name has a `/` it is rejected. */
  lemma EmptyVersionRejected(head: string, i: nat)
    requires i < |VersionBranchIdentifier|
    requires Trimmed(head + VersionBranchIdentifier[i] + "/")
    requires NoLineTerminator(head)
    requires forall q: nat :: q < |head| ==> !OccursAt(head + VersionBranchIdentifier[i] + "/", q)
    ensures ExtractVersion(head + VersionBranchIdentifier[i] + "/").None?
  {
    var id := VersionBranchIdentifier[i];
    var t := head + id + "/";
    assert t + [] == t;
    assert NoLineTerminator(t) by {
      IdentifierSingleLine(i);
      JoinKeepsNoLineTerminator(head, id);
      JoinKeepsNoLineTerminator(head + id, "/");
    }
    SegmentAfterHead(head, i, []);
    SearchFindsLeftmost(t, |head|, i);
    ExtractOfTrimmed(t);
  }

  /** A string in which no recognised identifier followed by `/` occurs
      anywhere yields no version. */
  lemma NoIdentifierNoVersion(t: string)
    requires forall q: nat :: q < |t| ==> !OccursAt(t, q)
    ensures VersionIn(t).None?
  {
    forall q: nat
      ensures !MatchesAt(t, q)
    {
      if q < |t| {
        assert !OccursAt(t, q);
      }
    }
    assert Search(t).None? by {
      if Search(t).Some? {
        assert MatchesAt(t, Search(t).value.start);
      }
    }
  }

  /** A name with a `/` in which no recognised identifier followed by `/`
      occurs anywhere is rejected. */
  lemma NoIdentifierRejected(branchName: string)
    requires '/' in branchName
    requires forall q: nat :: q < |Trim(branchName)| ==> !OccursAt(Trim(branchName), q)
    ensures ExtractVersion(branchName).None?
  {
    NoIdentifierNoVersion(Trim(branchName));
  }
}

=== FILE: checker.dfy ===
/** The checker's run: ask git for the current ref name, extract the version
    token from it, read the manifest, and confirm, fix or reject.

    The three side effects are inputs (`Environment`): what the git query,
    the manifest read and the manifest write would settle with. The run
    returns a `Report` that records the settled result together with the
    files it read and the writes it issued.
 */
module Checker {
  import opened Results
  import opened BranchVersion
  import opened Manifest

  /** The validated constructor options; both default to false. */
  datatype Options = Options(fixVersion: bool, verbose: bool)

  const DefaultOptions: Options := Options(false, false)

  /** Why a run is rejected. The causes of failed effects are the messages
      of the errors the effects settled with, passed on unchanged. */
  datatype Error =
    | QueryFailed(cause: string)
    | NoVersionFound
    | ReadFailed(cause: string)
    | VersionMismatch(git: string, found: Option<Value>)
    | WriteFailed(cause: string)

  const NoVersionMessage: string := "No current git branch version found."
  const MismatchHead: string := "Versions mismatch (git = "
  const MismatchMiddle: string := " package.json = "
  const MismatchTail: string := ")"

  /** `msg` is the mismatch text: the branch version `git` and the manifest's
      rendering `found`, each at its place between the fixed pieces. */
  predicate MismatchReads(msg: string, git: string, found: string) {
    var gitEnd := |MismatchHead| + |git|;
    var foundStart := gitEnd + |MismatchMiddle|;
    && |msg| == foundStart + |found| + |MismatchTail|
    && msg[..|MismatchHead|] == MismatchHead
    && msg[|MismatchHead|..gitEnd] == git
    && msg[gitEnd..foundStart] == MismatchMiddle
    && msg[foundStart..|msg| - |MismatchTail|] == found
    && msg[|msg| - |MismatchTail|..] == MismatchTail
  }

  /** The message of the error a run is rejected with: a failed effect's
      own message, the fixed text for a name without a version, or the
      mismatch text, in which a missing `version` reads `undefined`. */
  function Message(e: Error): (r: string)
    ensures e.QueryFailed? || e.ReadFailed? || e.WriteFailed? ==> r == e.cause
    ensures e.NoVersionFound? ==> r == NoVersionMessage
    ensures e.VersionMismatch? && e.found.None? ==> MismatchReads(r, e.git, "undefined")
    ensures e.VersionMismatch? && e.found.Some? && e.found.value.Str? ==> MismatchReads(r, e.git, e.found.value.s)
    ensures e.VersionMismatch? && e.found.Some? && e.found.value.Other? ==> MismatchReads(r, e.git, e.found.value.shown)
  {
    match e
    case QueryFailed(cause) => cause
    case NoVersionFound => NoVersionMessage
    case ReadFailed(cause) => cause
    case VersionMismatch(git, found) => MismatchHead + git + MismatchMiddle + Shown(found) + MismatchTail
    case WriteFailed(cause) => cause
  }

  /** How each side effect would settle if it were performed: the output
      of `git symbolic-ref -q HEAD`, the parsed manifest, the write. */
  datatype Environment = Environment(
    branchQuery: Result<string, string>,
    packageRead: Result<Package, string>,
    packageWrite: Outcome<string>)

  /** The two ways a run succeeds: the versions already agreed (the promise
      resolves with nothing), or the manifest was rewritten (it resolves
      with `true`). */
  datatype Verdict = Matched | Fixed

  datatype Write = Write(path: string, contents: Package)

  /** The settled promise, the paths read and the writes issued, in order. */
  datatype Report = Report(result: Result<Verdict, Error>, readPaths: seq<string>, writes: seq<Write>)

  /** A successful reconciliation leaves the manifest on disk holding the
      token: either no write was needed because it already did, or the one
      write issued carried the token and succeeded. */
  predicate EndsConsistent(before: Package, version: string, r: Report, write: Outcome<string>) {
    || (r.writes == [] && HasVersion(before, version))
    || (|r.writes| == 1 && write.Pass? && HasVersion(r.writes[0].contents, version))
  }

  /** `compareWithPackage`: read the manifest, compare its `version` with
      the token, and on a mismatch either reject or, in fix mode, write the
      manifest back with the token as its version. */
  function CompareWithPackage(version: string, opts: Options, env: Environment): (r: Report)
    ensures r.readPaths == [PackagePath]
    ensures |r.writes| <= 1
    ensures |r.writes| == 1 <==>
              opts.fixVersion && env.packageRead.Ok? && !HasVersion(env.packageRead.value, version)
    ensures |r.writes| == 1 ==>
              && r.writes[0].path == PackagePath
              && IsVersionUpdate(env.packageRead.value, r.writes[0].contents, version)
    ensures r.result.Ok? <==>
              env.packageRead.Ok? && (HasVersion(env.packageRead.value, version) || (opts.fixVersion && env.packageWrite.Pass?))
    ensures r.result.Ok? ==> EndsConsistent(env.packageRead.value, version, r, env.packageWrite)
    ensures r.result == Ok(Fixed) <==> |r.writes| == 1 && env.packageWrite.Pass?
  {
    match env.packageRead
    case Err(cause) => Report(Err(ReadFailed(cause)), [PackagePath], [])
    case Ok(m) =>
      if !HasVersion(m, version) then
        if opts.fixVersion then
          var fixed := WithVersion(m, version);
          var result := match env.packageWrite
            case Pass => Ok(Fixed)
            case Fail(cause) => Err(WriteFailed(cause));
          Report(result, [PackagePath], [Write(PackagePath, fixed)])
        else
          Report(Err(VersionMismatch(version, Version(m))), [PackagePath], [])
      else
        Report(Ok(Matched), [PackagePath], [])
  }

  /** `extractBranchVersionAndCompare`: a name without a version is
      rejected before the manifest is touched; otherwise the token is
      compared with the manifest. */
  function ExtractBranchVersionAndCompare(branchName: string, opts: Options, env: Environment): (r: Report)
    ensures r.readPaths == [] <==> ExtractVersion(branchName).None?
    ensures r.readPaths == [] ==> r.result == Err(NoVersionFound) && r.writes == []
    ensures r.result.Ok? ==>
              && ExtractVersion(branchName).Some?
              && env.packageRead.Ok?
              && EndsConsistent(env.packageRead.value, ExtractVersion(branchName).value, r, env.packageWrite)
  {
    match ExtractVersion(branchName)
    case None => Report(Err(NoVersionFound), [], [])
    case Some(version) => CompareWithPackage(version, opts, env)
  }

  /** `run`: query git for the ref name of HEAD, then extract and compare. */
  function Run(opts: Options, env: Environment): (r: Report)
    ensures env.branchQuery.Err? ==> r == Report(Err(QueryFailed(env.branchQuery.error)), [], [])
    ensures |r.writes| <= 1
    ensures r.writes != [] ==> opts.fixVersion && env.branchQuery.Ok? && env.packageRead.Ok?
    ensures r.result.Ok? ==>
              && env.branchQuery.Ok?
              && ExtractVersion(env.branchQuery.value).Some?
              && env.packageRead.Ok?
              && EndsConsistent(env.packageRead.value, ExtractVersion(env.branchQuery.value).value, r, env.packageWrite)
  {
    match env.branchQuery
    case Err(cause) => Report(Err(QueryFailed(cause)), [], [])
    case Ok(stdout) => ExtractBranchVersionAndCompare(stdout, opts, env)
  }

  /** Agreeing versions: success with no write, whatever the fix flag and
      whatever a write would have done. */
  lemma MatchedNeverWrites(version: string, opts: Options, env: Environment)
    requires env.packageRead.Ok? && HasVersion(env.packageRead.value, version)
    ensures CompareWithPackage(version, opts, env) == Report(Ok(Matched), [PackagePath], [])
  {
  }

  /** Differing versions without fix mode: rejected with a message naming
      the branch version first and the manifest's version second, no write. */
  lemma MismatchWithoutFixRejects(version: string, opts: Options, env: Environment)
    requires !opts.fixVersion
    requires env.packageRead.Ok? && !HasVersion(env.packageRead.value, version)
    ensures var r := CompareWithPackage(version, opts, env);
            && r.writes == []
            && r.result.Err?
            && var msg := Message(r.result.error);
            && var found := Shown(Version(env.packageRead.value));
            && MismatchReads(msg, version, found)
  {
  }

  /** Differing versions in fix mode: exactly one write, to the manifest's
      path, of the manifest read with only its `version` replaced; the run
      succeeds exactly when that write does. */
  lemma FixWritesOnce(version: string, opts: Options, env: Environment)
    requires opts.fixVersion
    requires env.packageRead.Ok? && !HasVersion(env.packageRead.value, version)
    ensures var r := CompareWithPackage(version, opts, env);
            && r.writes == [Write(PackagePath, WithVersion(env.packageRead.value, version))]
            && (r.result.Ok? <==> env.packageWrite.Pass?)
            && (env.packageWrite.Fail? ==> r.result == Err(WriteFailed(env.packageWrite.error)))
  {
  }

  /** A manifest that cannot be read rejects the comparison with the read
      error, and nothing is written even in fix mode. */
  lemma ReadFailureNeverWrites(version: string, opts: Options, env: Environment)
    requires env.packageRead.Err?
    ensures CompareWithPackage(version, opts, env) == Report(Err(ReadFailed(env.packageRead.error)), [PackagePath], [])
  {
  }

  /** Fixing is idempotent: comparing the manifest just written against the
      same token takes the matched branch and writes nothing more. */
  lemma FixIdempotent(version: string, opts: Options, env: Environment, env': Environment)
    requires CompareWithPackage(version, opts, env).result == Ok(Fixed)
    requires env'.packageRead == Ok(CompareWithPackage(version, opts, env).writes[0].contents)
    ensures CompareWithPackage(version, opts, env') == Report(Ok(Matched), [PackagePath], [])
  {
  }

  /** A ref name that yields no version rejects the run before the
      manifest is read, so it is neither read nor written. */
  lemma UnversionedBranchTouchesNothing(opts: Options, env: Environment)
    requires env.branchQuery.Ok? && ExtractVersion(env.branchQuery.value).None?
    ensures Run(opts, env) == Report(Err(NoVersionFound), [], [])
    ensures Message(Run(opts, env).result.error) == NoVersionMessage
  {
  }

  /** Running again after a successful fix, on the same ref and the
      manifest as written, succeeds with no further write, in either mode. */
  lemma RunIdempotentAfterFix(opts: Options, env: Environment, opts': Options, env': Environment)
    requires Run(opts, env).result == Ok(Fixed)
    requires env'.branchQuery == env.branchQuery
    requires env'.packageRead == Ok(Run(opts, env).writes[0].contents)
    ensures Run(opts', env') == Report(Ok(Matched), [PackagePath], [])
  {
  }

  /** The verbose flag only gates log output: it never changes a run. */
  lemma VerboseIsSideChannel(fix: bool, env: Environment)
    ensures Run(Options(fix, false), env) == Run(Options(fix, true), env)
  {
  }
}

=== FILE: manifest.dfy ===
/** The parsed `package.json`: a JSON object seen as a map from keys to
    values, of which only `version` is ever inspected or changed.
 */
module Manifest {
  import opened Results

  /** Where the checker reads and writes the manifest. */
  const PackagePath: string := "./package.json"

  const VersionKey: string := "version"

  /** A JSON value as far as the checker can tell values apart: a string,
      or any other value together with the text JavaScript's `String()`
      renders it as (`1`, `true`, `null`, `[object Object]`, ...). */
  datatype Value = Str(s: string) | Other(shown: string)

  type Package = map<string, Value>

  /** The `version` property, absent when the object has none. */
  function Version(m: Package): Option<Value> {
    if VersionKey in m then Some(m[VersionKey]) else None
  }

  /** `packageFile.version === version`: strict equality holds only for a
      string property with exactly the same characters. */
  predicate HasVersion(m: Package, version: string)
    ensures HasVersion(m, version) <==> VersionKey in m && m[VersionKey].Str? && m[VersionKey].s == version
    ensures HasVersion(m, version) ==> Shown(Version(m)) == version
  {
    Version(m) == Some(Str(version))
  }

  /** `after` is `before` with its `version` property set to the string
      `version`: the property is added if missing, every other property is
      kept with its value, and nothing else is added. */
  predicate IsVersionUpdate(before: Package, after: Package, version: string) {
    && after.Keys == before.Keys + {VersionKey}
    && after[VersionKey] == Str(version)
    && forall k :: k in before && k != VersionKey ==> after[k] == before[k]
  }

  /** `packageFile.version = version` on the parsed object. */
  function WithVersion(m: Package, version: string): (r: Package)
    ensures IsVersionUpdate(m, r, version)
    ensures HasVersion(r, version)
  {
    m[VersionKey := Str(version)]
  }

  /** `String(packageFile.version)`, as string concatenation renders it. */
  function Shown(v: Option<Value>): string {
    match v
    case None => "undefined"
    case Some(Str(s)) => s
    case Some(Other(shown)) => shown
  }

  /** The update is determined by its description: any manifest that
      updates `m` to `version` is the one `WithVersion` builds. */
  lemma VersionUpdateUnique(m: Package, n: Package, version: string)
    requires IsVersionUpdate(m, n, version)
    ensures n == WithVersion(m, version)
  {
  }

  /** Setting the version a manifest already has changes nothing. */
  lemma WithVersionIdempotent(m: Package, version: string)
    requires HasVersion(m, version)
    ensures WithVersion(m, version) == m
  {
  }

  /** A non-string `version` never equals a branch token, even when it
      prints as that token (`1` is not `"1"`). */
  lemma NonStringNeverMatches(m: Package, version: string)
    requires VersionKey in m && m[VersionKey].Other?
    ensures !HasVersion(m, version)
  {
  }
}

=== FILE: results.dfy ===
/** Failure-carrying values used to pass the outcome of the checker's
    side effects (the git query, the manifest read and write) into the model.
 */
module Results {

  /** A value that may be absent (JavaScript's `null` / `undefined`). */
  datatype Option<+T> = None | Some(value: T)

  /** The settled state of a promise or callback: a value or an error. */
  datatype Result<+T, +E> = Ok(value: T) | Err(error: E)

  /** The settled state of an operation that yields no value. */
  datatype Outcome<+E> = Pass | Fail(error: E)
}

=== FILE: scenarios.dfy ===
/** The situations the repository's test suite exercises, stated as facts
    about the model, plus two edge cases of the extraction rule.
 */
module Scenarios {
  import opened Results
  import opened Text
  import opened BranchVersion
  import opened Manifest
  import opened Checker

  const FakeVersion: string := "1.0.0"
  const MismatchedVersion: string := "2.0.0"

  function PackageAt(version: string): Package {
    map[VersionKey := Str(version)]
  }

  function Env(branchName: string, read: Result<Package, string>, write: Outcome<string>): Environment {
    Environment(Ok(branchName), read, write)
  }

  /** A version as the suite uses them: non-empty, on one line, and not
      ending in whitespace. */
  predicate PlainVersion(v: string) {
    v != [] && NoLineTerminator(v) && !IsTrimmable(v[|v| - 1])
  }

  /** No recognised identifier starts inside the head `heads/` when what
      follows it does not begin with `/`. */
  lemma HeadsClear(t: string)
    requires |t| > 6 && t[..6] == "heads/" && t[6] != '/'
    ensures forall q: nat :: q < 6 ==> !OccursAt(t, q)
  {
    forall q: nat | q < 6
      ensures !OccursAt(t, q)
    {
      assert t[q] == t[..6][q];
      assert CannotStartAt(t, q) by {
        assert t[q] in "heads/" && t[q] != 't' && t[q] != 'r';
      }
      CannotStartRulesOut(t, q);
    }
  }

  /** Past the last `/` no recognised identifier can start. */
  lemma SlashFreeTail(head: string, tail: string)
    requires '/' !in tail
    ensures forall q: nat :: |head| <= q < |head + tail| ==> !OccursAt(head + tail, q)
  {
  }

  /** Fixing a one-field manifest yields the one-field manifest of the
      branch's version. */
  lemma FixedPackage(w: string, v: string)
    ensures WithVersion(PackageAt(w), v) == PackageAt(v)
  {
  }

  /** No recognised identifier starts inside the head `refs/heads/` when a
      recognised identifier follows it. */
  lemma RefsHeadsClear(i: nat, v: string)
    requires i < |VersionBranchIdentifier|
    ensures forall q: nat :: q < 11 ==> !OccursAt("refs/heads/" + VersionBranchIdentifier[i] + "/" + v, q)
  {
    var u := "refs/heads/" + VersionBranchIdentifier[i] + "/" + v;
    forall q: nat | q < 11
      ensures !OccursAt(u, q)
    {
      assert CannotStartAt(u, q) by {
        assert u[q] == "refs/heads/"[q] && u[7] == 'a' && u[11] != '/';
      }
      CannotStartRulesOut(u, q);
    }
  }

  /** The names the suite expects to pass, built as it builds them from a
      version: each yields exactly that version. */
  lemma TagNamePasses(v: string)
    requires PlainVersion(v)
    ensures ExtractVersion("tags" + "/" + v) == Some(v)
  {
    assert "tags" + "/" + v == "" + VersionBranchIdentifier[0] + "/" + v;
    ExtractAfterIdentifier("", 0, v);
  }

  lemma HeadsReleaseNamePasses(v: string)
    requires PlainVersion(v)
    ensures ExtractVersion("heads/" + "release" + "/" + v) == Some(v)
  {
    var t := "heads/" + VersionBranchIdentifier[1] + "/" + v;
    assert t[..6] == "heads/" && t[6] == 'r';
    HeadsClear(t);
    ExtractAfterIdentifier("heads/", 1, v);
  }

  lemma RefsHeadsReleaseNamePasses(v: string)
    requires PlainVersion(v)
    ensures ExtractVersion("refs/heads/" + "release" + "/" + v) == Some(v)
  {
    RefsHeadsClear(1, v);
    ExtractAfterIdentifier("refs/heads/", 1, v);
  }

  lemma HeadsHotfixNamePasses(v: string)
    requires PlainVersion(v)
    ensures ExtractVersion("heads/" + "hotfix" + "/" + v) == Some(v)
  {
    var t := "heads/" + VersionBranchIdentifier[2] + "/" + v;
    assert t[..6] == "heads/" && t[6] == 'h';
    HeadsClear(t);
    ExtractAfterIdentifier("heads/", 2, v);
  }

  lemma RefsHeadsHotfixNamePasses(v: string)
    requires PlainVersion(v)
    ensures ExtractVersion("refs/heads/" + "hotfix" + "/" + v) == Some(v)
  {
    RefsHeadsClear(2, v);
    ExtractAfterIdentifier("refs/heads/", 2, v);
  }

  /** A release branch whose version equals the manifest's passes without
      a write, in either mode. */
  lemma ReleaseBranchMatches(opts: Options, v: string)
    requires PlainVersion(v)
    ensures Run(opts, Env("refs/heads/" + "release" + "/" + v, Ok(PackageAt(v)), Pass))
            == Report(Ok(Matched), [PackagePath], [])
  {
    RefsHeadsReleaseNamePasses(v);
  }

  /** With a different manifest version it is fixed in fix mode: the
      manifest is written back holding the branch's version. */
  lemma ReleaseBranchFixed(verbose: bool, v: string, w: string)
    requires PlainVersion(v) && v != w
    ensures Run(Options(true, verbose), Env("refs/heads/" + "release" + "/" + v, Ok(PackageAt(w)), Pass))
            == Report(Ok(Fixed), [PackagePath], [Write(PackagePath, PackageAt(v))])
  {
    RefsHeadsReleaseNamePasses(v);
    FixedPackage(w, v);
  }

  /** Without fix mode it is reported, naming both versions. */
  lemma ReleaseBranchMismatch(verbose: bool, v: string, w: string)
    requires PlainVersion(v) && v != w
    ensures var r := Run(Options(false, verbose), Env("refs/heads/" + "release" + "/" + v, Ok(PackageAt(w)), Pass));
            && r == Report(Err(VersionMismatch(v, Some(Str(w)))), [PackagePath], [])
            && Message(r.result.error) == "Versions mismatch (git = " + v + " package.json = " + w + ")"
  {
    var r := Run(Options(false, verbose), Env("refs/heads/" + "release" + "/" + v, Ok(PackageAt(w)), Pass));
    assert r == Report(Err(VersionMismatch(v, Some(Str(w)))), [PackagePath], []) by {
      RefsHeadsReleaseNamePasses(v);
    }
    MismatchMessageReads(v, w);
  }

  /** The mismatch message as the suite expects to read it. */
  lemma MismatchMessageReads(v: string, w: string)
    ensures Message(VersionMismatch(v, Some(Str(w)))) == "Versions mismatch (git = " + v + " package.json = " + w + ")"
  {
  }

  /** A branch under `heads/` with no further `/` contains no recognised
      identifier followed by `/`. */
  lemma HeadsBranchClear(branch: string)
    requires branch != [] && '/' !in branch
    ensures forall q: nat :: q < |"heads/" + branch| ==> !OccursAt("heads/" + branch, q)
  {
    var t := "heads/" + branch;
    assert t[..6] == "heads/" && t[6] == branch[0];
    HeadsClear(t);
    SlashFreeTail("heads/", branch);
  }

  /** The names the suite expects to fail, `heads/develop` and
      `heads/master`, are a branch under `heads/` with no further `/`: no
      version is found in such a name. */
  lemma HeadsBranchRejected(branch: string)
    requires branch != [] && !IsTrimmable(branch[|branch| - 1])
    requires '/' !in branch
    ensures ExtractVersion("heads/" + branch).None?
  {
    var t := "heads/" + branch;
    assert '/' in t by {
      assert t[5] == '/';
    }
    assert Trimmed(t) by {
      assert t[0] == 'h' && t[|t| - 1] == branch[|branch| - 1];
    }
    HeadsBranchClear(branch);
    NoIdentifierNoVersion(t);
    ExtractOfTrimmed(t);
  }

  /** Such a name rejects the run, and the manifest is never touched. */
  lemma UnsupportedBranchNamesFail(opts: Options, branch: string, read: Result<Package, string>, write: Outcome<string>)
    requires branch != [] && !IsTrimmable(branch[|branch| - 1])
    requires '/' !in branch
    ensures Run(opts, Env("heads/" + branch, read, write)) == Report(Err(NoVersionFound), [], [])
  {
    HeadsBranchRejected(branch);
  }

  /** A recognised identifier at the very end leaves an empty capture,
      which does not count as a version. */
  lemma EmptyCaptureRejected()
    ensures ExtractVersion("refs/heads/" + "release" + "/").None?
  {
    assert "refs/heads/" + "release" + "/" == "refs/heads/" + VersionBranchIdentifier[1] + "/" + [];
    RefsHeadsClear(1, []);
    EmptyVersionRejected("refs/heads/", 1);
  }

  /** A name without `/` is taken whole, as received: a trailing newline
      stays in the token, so it then differs from the manifest. */
  lemma SlashFreeNameTakenWhole(v: string)
    requires '/' !in v
    ensures ExtractVersion(v) == Some(v)
    ensures Run(DefaultOptions, Env(v + "\n", Ok(PackageAt(v)), Pass)).result
            == Err(VersionMismatch(v + "\n", Some(Str(v))))
  {
    assert '/' !in v + "\n";
    assert v + "\n" != v;
  }

  /** A failed git query, a failed read and a failed write each reject the
      run with their own error; only the last issues a write. */
  lemma EffectFailuresReject(v: string, w: string, cause: string)
    requires PlainVersion(v) && v != w
    ensures Run(DefaultOptions, Environment(Err(cause), Ok(PackageAt(w)), Pass))
            == Report(Err(QueryFailed(cause)), [], [])
    ensures Run(Options(true, false), Env("refs/heads/" + "release" + "/" + v, Err(cause), Pass))
            == Report(Err(ReadFailed(cause)), [PackagePath], [])
    ensures Run(Options(true, false), Env("refs/heads/" + "release" + "/" + v, Ok(PackageAt(w)), Fail(cause)))
            == Report(Err(WriteFailed(cause)), [PackagePath], [Write(PackagePath, PackageAt(v))])
  {
    RefsHeadsReleaseNamePasses(v);
    FixedPackage(w, v);
  }
}

=== FILE: text.dfy ===
/** The character classes and the `trim` of ECMAScript strings, as far as
    the branch-name parser needs them.
 */
module Text {

  /** ECMAScript WhiteSpace: tab, vertical tab, form feed, space, no-break
      space, byte order mark and every code point of Unicode category Zs. */
  predicate IsWhiteSpace(c: char) {
    var n := c as int;
    n == 0x09 || n == 0x0B || n == 0x0C || n == 0x20 || n == 0xA0 || n == 0xFEFF
    || n == 0x1680 || (0x2000 <= n <= 0x200A) || n == 0x202F || n == 0x205F || n == 0x3000
  }

  /** ECMAScript LineTerminator: the characters `.` in a regular expression
      does not match, and which `$` without the multiline flag does not stop at. */
  predicate IsLineTerminator(c: char) {
    var n := c as int;
    n == 0x0A || n == 0x0D || n == 0x2028 || n == 0x2029
  }

  /** The characters `String.prototype.trim` removes from either end. */
  predicate IsTrimmable(c: char) {
    IsWhiteSpace(c) || IsLineTerminator(c)
  }

  predicate AllTrimmable(s: string) {
    forall i :: 0 <= i < |s| ==> IsTrimmable(s[i])
  }

  predicate NoLineTerminator(s: string) {
    forall i :: 0 <= i < |s| ==> !IsLineTerminator(s[i])
  }

  /** Neither end of `s` can be trimmed. */
  predicate Trimmed(s: string) {
    s == [] || (!IsTrimmable(s[0]) && !IsTrimmable(s[|s| - 1]))
  }

  /** `s` without its leading trimmable characters. */
  function TrimStart(s: string): string {
    if s != [] && IsTrimmable(s[0]) then TrimStart(s[1..]) else s
  }

  /** `TrimStart` removes a prefix of trimmable characters, and exactly
      as many as there are: what remains does not start with one. The
      facts live in a lemma rather than in the function's contract so that
      they are only in scope where a proof asks for them. */
  lemma {:induction false} TrimStartRemovesPadding(s: string)
    ensures |TrimStart(s)| <= |s| && TrimStart(s) == s[|s| - |TrimStart(s)|..]
    ensures AllTrimmable(s[..|s| - |TrimStart(s)|])
    ensures TrimStart(s) == [] || !IsTrimmable(TrimStart(s)[0])
    decreases |s|
  {
    if s != [] && IsTrimmable(s[0]) {
      TrimStartRemovesPadding(s[1..]);
      var r := TrimStart(s);
      assert s[|s| - |r|..] == s[1..][|s[1..]| - |r|..];
      assert s[..|s| - |r|] == [s[0]] + s[1..][..|s[1..]| - |r|];
    }
  }

  /** `s` without its trailing trimmable characters. */
  function TrimEnd(s: string): string {
    if s != [] && IsTrimmable(s[|s| - 1]) then TrimEnd(s[..|s| - 1]) else s
  }

  /** `TrimEnd` removes a suffix of trimmable characters, and exactly as
      many as there are: what remains does not end with one. */
  lemma {:induction false} TrimEndRemovesPadding(s: string)
    ensures |TrimEnd(s)| <= |s| && TrimEnd(s) == s[..|TrimEnd(s)|]
    ensures AllTrimmable(s[|TrimEnd(s)|..])
    ensures TrimEnd(s) == [] || !IsTrimmable(TrimEnd(s)[|TrimEnd(s)| - 1])
    decreases |s|
  {
    if s != [] && IsTrimmable(s[|s| - 1]) {
      TrimEndRemovesPadding(s[..|s| - 1]);
      var r := TrimEnd(s);
      assert s[..|s| - 1][..|r|] == s[..|r|];
      assert s[|r|..] == s[..|s| - 1][|r|..] + [s[|s| - 1]];
    }
  }

  /** `r` sits at offset `a` of `s`, with nothing but trimmable padding
      before and after it. */
  predicate PaddedAt(s: string, r: string, a: nat) {
    a + |r| <= |s| && r == s[a..a + |r|]
    && AllTrimmable(s[..a]) && AllTrimmable(s[a + |r|..])
  }

  /** `String.prototype.trim`: the infix of `s` left after removing every
      trimmable character from both ends. */
  function Trim(s: string): (r: string)
    ensures |r| <= |s|
    ensures Trimmed(r)
  {
    TrimStartRemovesPadding(s);
    TrimEndRemovesPadding(TrimStart(s));
    TrimEnd(TrimStart(s))
  }

  /** `Trim` keeps the infix of `s` that starts where `TrimStart` stops,
      and removes only trimmable padding around it. */
  lemma TrimPaddedAt(s: string)
    ensures |TrimStart(s)| <= |s|
    ensures PaddedAt(s, Trim(s), |s| - |TrimStart(s)|)
  {
    TrimStartRemovesPadding(s);
    TrimEndRemovesPadding(TrimStart(s));
    PaddingComposes(s, TrimStart(s), Trim(s));
  }

  /** Removing padding from the front and then from the back leaves the
      core padded in the original string. */
  lemma PaddingComposes(s: string, t: string, r: string)
    requires |t| <= |s| && t == s[|s| - |t|..] && AllTrimmable(s[..|s| - |t|])
    requires |r| <= |t| && r == t[..|r|] && AllTrimmable(t[|r|..])
    ensures PaddedAt(s, r, |s| - |t|)
  {
    var a := |s| - |t|;
    assert r == s[a..a + |r|];
    assert s[a + |r|..] == t[|r|..];
  }

  /** `Trim` adds nothing: every character of its result occurs in its input. */
  lemma TrimOnlyRemoves(s: string, c: char)
    requires c in Trim(s)
    ensures c in s
  {
    var t := TrimStart(s);
    var r := TrimEnd(t);
    TrimStartRemovesPadding(s);
    TrimEndRemovesPadding(t);
    var k :| 0 <= k < |r| && r[k] == c;
    assert t[k] == c;
    assert s[|s| - |t| + k] == c;
  }

  lemma {:induction false} TrimStartSkips(u: string, w: string)
    requires AllTrimmable(u)
    requires w == [] || !IsTrimmable(w[0])
    ensures TrimStart(u + w) == w
    decreases |u|
  {
    if u == [] {
      assert u + w == w;
    } else {
      assert (u + w)[0] == u[0];
      assert (u + w)[1..] == u[1..] + w;
      TrimStartSkips(u[1..], w);
    }
  }

  lemma {:induction false} TrimEndSkips(w: string, v: string)
    requires AllTrimmable(v)
    requires w == [] || !IsTrimmable(w[|w| - 1])
    ensures TrimEnd(w + v) == w
    decreases |v|
  {
    if v == [] {
      assert w + v == w;
    } else {
      var n := |w + v|;
      assert (w + v)[n - 1] == v[|v| - 1];
      assert (w + v)[..n - 1] == w + v[..|v| - 1];
      TrimEndSkips(w, v[..|v| - 1]);
    }
  }

  /** `Trim` is determined by its characterisation: whatever trimmable
      padding surrounds a trimmed core, `Trim` returns exactly that core. */
  lemma TrimOfPadded(u: string, r: string, v: string)
    requires AllTrimmable(u) && AllTrimmable(v) && Trimmed(r)
    ensures Trim(u + r + v) == r
  {
    if r == [] {
      assert u + r + v == u + v;
      assert AllTrimmable(u + v);
      TrimStartSkips(u + v, []);
      assert u + v + [] == u + v;
      assert TrimStart(u + v) == [];
    } else {
      assert u + r + v == u + (r + v);
      assert (r + v)[0] == r[0];
      TrimStartSkips(u, r + v);
      TrimEndSkips(r, v);
    }
  }

  /** A string with nothing to trim at either end is its own trim. */
  lemma TrimOfTrimmed(s: string)
    requires Trimmed(s)
    ensures Trim(s) == s
  {
  }

  /** Trimming twice is trimming once. */
  lemma TrimIdempotent(s: string)
    ensures Trim(Trim(s)) == Trim(s)
  {
  }
}
